=== FILE: README.md ===
# OpenMountainWatch conditions: a Dafny model of the reconciliation engine

`conditions.py` polls the Outdooractive content service for condition
records (closures and advisories). On the default run it reads every
candidate the service lists. It stores each record whose id is not yet in
the `conditions` table, with the flag `processed = "n"`. For each newly
stored record it runs the configured action (`SendEmail`,
`CreateJiraTicket` or `JiraAndSendEmail`) and then sets the flag to `"y"`.
Finally it re-reads every stored record. Where the service's workflow state
differs from the stored status, it overwrites the status and, in `SendEmail`
mode only, sends a status-change notice.

The model has five modules:

- `Records` (records.dfy): the parsed detail record (`Payload`), the table
  row (`Row`), the defaulting of the four optional elements, and the region
  description built at read time.
- `Notices` (notices.dfy): the outbox entries (`Event`: a message, or a
  ticket attempt with its outcome), the three action modes, the fallback
  alert for a failed ticket, and the notice texts.
- `Reconcile` (reconcile.dfy): the engine as pure transitions on a value
  `World`. A `World` holds the table (row order and rows by id), the outbox
  and the run state (running, exited, crashed). There is one transition per
  Python function, plus `RunSpec` for `main`.
- `Conditions` (engine.dfy): class `Engine`. Its fields are the table, the
  outbox and the module globals (`c_xml`, `geometry_description`, `subject`,
  `description`). Each method does what its Python function does, loops
  included. `Save`, `ExecuteCondition`, `ConditionStatusChanged`,
  `CheckStored`, `StatusStoredConditions`, `Process`, `Ingest` and `Run` are
  proved to have exactly the effect of the matching `Reconcile` transition.
  `ReadCondition` is proved against `Records.WithDefaults` and
  `Records.GeometryDescription`. `SendMessage` and `CreateTicket` are proved
  against `Notices.TicketEvents` and the outbox. `FillSubjectDescription` is
  proved against `Notices.NewSubject` and `Notices.NewDescription`.
- `Properties` (properties.dfy): lemmas over whole runs. They cover the
  table invariant (unique ids, at most one insertion per id, rows never
  deleted, `processed` only from "n" to "y", geometry description frozen),
  exact message and ticket counts per mode, and idempotence of a second run.

Inputs that the program gets from outside become parameters:

- the service's record for an id: `up: string -> Payload`, with region
  records already resolved into `Payload.regions`;
- the candidate list: `candidates: seq<string>`;
- the ticket service's answer for a condition id: `created: string -> bool`;
- the command line after the program name: `args`;
- the configuration and the date of the run: `Config`.

The row order of `SELECT id, status FROM conditions` (no `ORDER BY`) is
taken to be insertion order.

Behaviour of the code worth knowing:

- `date_processed` is written once, at insertion, with today's date. Marking
  a row processed does not change it (conditions.py:225, 420-425).
- With an unknown action mode the run exits at the first new record, after
  inserting it, and leaves that row unprocessed (conditions.py:417-418). Rows
  processed in earlier runs stay processed. `InvalidActionIsSilent` proves
  that such a run sends nothing, flags no row and adds at most one row.
- `process <id>` honours the `processed` flag: for a row already flagged "y"
  it does nothing. It crashes when no row has that id, because `processed`
  indexes the missing first row (conditions.py:269-271, 286-290).
- New-record notices send the globals `subject` and `description`. Only
  `fill_subject_description` sets them, and nothing calls it, so in a real
  run every new-record notice and ticket has an empty subject and body. The
  local `Subject`/`Description` built at conditions.py:402-403 are discarded.
- The stored status is the only record of a status notice. A status change
  notifies only in `SendEmail` mode: no ticket, and no message in the other
  modes (conditions.py:481-485).
- Nothing catches a failed fetch, so a failure for one id ends the whole run
  (conditions.py:160, 185). The model's `up` always answers, so this crash
  is not expressed.
- A row left "n", for instance by the unknown-mode exit, is never
  dispatched by a later default run. `execute_condition` runs only right
  after a fresh insert (conditions.py:535-537), so the default run never
  reads the flag of a row stored before it. `UnprocessedRowStaysUnprocessed`
  proves this; only `process <id>` can still dispatch such a row.
- `list` crashes as soon as the table has a row, because it indexes `row[6]`
  of a six-column select (conditions.py:447). Line 538 therefore runs after
  `list` only on an empty table, and after `process <id>`, and after any
  unknown command word.

## Model

The reference definitions that the lemmas and methods below are stated
against are `Records.GeometryDescription` (the loop at
conditions.py:208-211), `Reconcile.StatusLoop` and `Reconcile.StatusPass`
(conditions.py:452-466), `Reconcile.IngestLoop` (conditions.py:530-537),
`Reconcile.Finish` (conditions.py:538) and `Reconcile.RunSpec`
(conditions.py:487-538). They only compute, so they appear in the rows of
the members whose contracts use them.

| member | source | states |
|---|---|---|
| `Records.RegionSegment` | conditions.py:148-163 | a region contributes its category name, "->", its title and " / ": length of the two names plus 5, starting with the category and ending in " / " |
| `Records.GeometryDescriptionAppend` | conditions.py:208-211 | the description of a concatenation of region lists is the concatenation of their descriptions |
| `Records.GeometryDescriptionLength` | conditions.py:208-211 | the description's length is the sum over regions of the two name lengths plus 5 |
| `Records.GeometrySegmentAt` | conditions.py:208-211 | the k-th region's segment appears in the description right after the segments of the regions before it, in order |
| `Records.WithDefaults` | conditions.py:187-206 | each of longText, weatherDescription, localizedTitle/@lang and riskDescription becomes "" when missing and keeps its value when present; every other element is unchanged; an already filled record is returned as is |
| `Notices.TicketEvents` | conditions.py:310-325 | one ticket attempt; a successful ticket sends nothing; a failed one adds exactly one alert, subject "[ERROR] creating new Jira ticket: ", body "Check application log file." |
| `Notices.ActionEvents` | conditions.py:404-418 | a known mode gives: SendEmail one message; CreateJiraTicket one ticket attempt; JiraAndSendEmail one message and then one ticket attempt; each failed ticket adds one alert; any other mode gives nothing (the exit); whenever a ticket fails, the last event is the fallback alert |
| `Notices.StatusMessageIdentifies` | conditions.py:479-480 | two status notices for one title are equal only when they name the same record and the same new state |
| `Notices.Head` | conditions.py:358 | Python's `s[:10]`: the prefix of length min(10, \|s\|) |
| `Notices.StatusMessage` | conditions.py:479-480 | the status notice is a message whose subject starts with "CONDITIONS: Status was updated ", then the title, and ends with the new state, and whose body is "Condition: www.outdooractive.ro/ro/r/" followed by exactly the record id |
| `Notices.NewSubject` | conditions.py:349-359 | the new-record subject is "NEW " followed by the frontend type, then the title and the status at fixed offsets, and ends with at most the first ten characters of the inspection date |
| `Notices.NewDescription` | conditions.py:361-377 | the new-record body starts with "NEW " and the frontend type, holds the link base URL + record id just before the rule and user label, and ends with the link base URL + author id |
| `Notices.NewDescriptionIdentifies` | conditions.py:371-372 | two new-record bodies for the same row and base URL are equal only when they link the same record id |
| `Records.NewRow` | conditions.py:236-257 | the inserted row takes id, workflow state, category id, inspection date, start date, frontend type, ranking, title, winter activity, geometry and author id from the record, the defaulted optional elements, coordinates 0 and 0, the flag "n", today's date and the region description |
| `Reconcile.Processed` | conditions.py:269-278 | `processed`: no answer (the crash) exactly when no row has the id; otherwise True exactly when the stored flag is "y", and False for any other flag |
| `Reconcile.Snapshot` | conditions.py:457-461 | `SELECT id, status`: at most one pair per listed id, and each pair is a stored id with its stored status |
| `Reconcile.StatusStep` | conditions.py:463-466 | one re-read keeps the ids, the set of rows and the run state, and changes nothing when the re-read state equals the selected status |
| `Reconcile.IngestOne` | conditions.py:529-537 | a candidate whose id is stored changes nothing; otherwise its id is appended and existing rows are kept; with a known mode the new row is the inserted row flagged "y" and the outbox gains the mode's events; with an unknown mode the row stays "n", nothing is sent and the run exits |
| `Reconcile.Dispatch` | conditions.py:487-508 | no command but the default run inserts or removes rows; help exits; list crashes on a non-empty table and does nothing on an empty one; process without an id exits; process changes no row but the read record's; any other word does nothing |
| `Reconcile.Saved` | conditions.py:219-260 | the record is inserted exactly when its id is absent: one id appended, status = workflow state, processed = "n", date_processed = today, the read geometry description, and exactly the inserted row `NewRow`; when the id is present nothing changes; existing rows are never changed |
| `Reconcile.Executed` | conditions.py:383-425 | a row already flagged "y" changes nothing; otherwise a known mode appends its events and flags that row "y", changing no other row; an unknown mode exits without sending, ticketing or flagging; a missing row crashes |
| `Reconcile.StatusChanged` | conditions.py:471-485 | the row with the record's id gets the new status and no other row changes; SendEmail appends exactly the notice "CONDITIONS: Status was updated " + title + " -> " + state / "Condition: www.outdooractive.ro/ro/r/" + id; other modes send nothing |
| `Conditions.Engine.constructor` | conditions.py:44-49 | a process starts on an existing table with an empty outbox and empty globals |
| `Conditions.Engine.ReadCondition` | conditions.py:170-213 | `c_xml` becomes the defaulted record and `geometry_description` the in-order concatenation of the region segments, built by the loop |
| `Conditions.Engine.Save` | conditions.py:219-260 | returns True exactly when the id was absent; the table becomes `Saved` of the old one |
| `Conditions.Engine.SendMessage` | conditions.py:296-304 | appends one message to the outbox |
| `Conditions.Engine.CreateTicket` | conditions.py:310-325 | appends the ticket attempt, then the fallback alert when it failed |
| `Conditions.Engine.ExecuteCondition` | conditions.py:383-425 | has exactly the effect of `Executed`, sending the globals `subject` and `description` |
| `Conditions.Engine.FillSubjectDescription` | conditions.py:328-377 | sets `subject` and `description` to the new-record texts built from the stored row, its id and the base URL; crashes when no row has that id |
| `Conditions.Engine.ConditionStatusChanged` | conditions.py:471-485 | has exactly the effect of `StatusChanged` |
| `Conditions.Engine.CheckStored` | conditions.py:463-466 | one iteration of the status loop has exactly the effect of `StatusStep` |
| `Conditions.Engine.StatusStoredConditions` | conditions.py:452-466 | has exactly the effect of the status pass over the (id, status) pairs selected at its start |
| `Conditions.Engine.Process` | conditions.py:286-290 | reads the record and has exactly the effect of `Executed` for it |
| `Conditions.Engine.Ingest` | conditions.py:528-537 | the candidate loop has exactly the effect of `IngestLoop`: read, save, and execute when newly saved, until the run ends |
| `Conditions.Engine.Run` | conditions.py:487-538 | `main` has exactly the effect of `RunSpec`: help exits, list crashes on a non-empty table, process without an id exits, then the status check runs whenever the run is still going |
| `Properties.StatusStepKeeps` | conditions.py:463-477 | one status check keeps the table invariant and changes no flag |
| `Properties.StatusStepCounts` | conditions.py:463-485 | one status check opens no ticket and sends a notice only in SendEmail mode and only on a change |
| `Properties.StatusCheckOfRow` | conditions.py:463-485 | a stored row's status is overwritten exactly when the re-read state differs, and then with that state; no other row changes; only SendEmail sends, one notice naming the record and its new state |
| `Properties.StatusLoopKeeps` | conditions.py:463-477 | the status pass keeps the table invariant and leaves ids, flags and run state unchanged |
| `Properties.StatusLoopCounts` | conditions.py:463-485 | the status pass opens no ticket; in SendEmail mode it sends exactly one notice per changed row; in other modes it sends nothing |
| `Properties.ExecutedKeeps` | conditions.py:419-425 | dispatch keeps the table invariant and moves the flag only from "n" to "y" |
| `Properties.IngestOneKeeps` | conditions.py:531-537 | one candidate keeps the table invariant: an id is never inserted twice and rows are only appended |
| `Properties.IngestLoopKeeps` | conditions.py:530-537 | the same for the whole candidate loop |
| `Properties.DispatchKeeps` | conditions.py:487-537 | the same for every command before the closing status check |
| `Properties.FinishKeeps` | conditions.py:538 | the same for the closing status check |
| `Properties.RunKeeps` | conditions.py:487-538 | over any run: ids unique, rows never deleted, a row changes only its status and flag, the flag moves only from "n" to "y", the geometry description is frozen, the outbox only grows |
| `Properties.IngestCounts` | conditions.py:404-418 | over the candidate loop with a known mode, with n rows inserted: n messages under SendEmail, n ticket attempts under CreateJiraTicket, n messages and n ticket attempts under JiraAndSendEmail, plus one alert per failed ticket; the run goes on |
| `Properties.IngestMarksEveryInsert` | conditions.py:535-537 | with a known mode every row the candidate loop inserts ends processed |
| `Properties.IngestStoresCandidates` | conditions.py:530-537 | a loop that ends running has stored every candidate's record |
| `Properties.IngestQuiet` | conditions.py:233 | candidates whose records are all stored change nothing: no row, no message, no ticket |
| `Properties.SnapshotFacts` | conditions.py:457-461 | the selected pairs are the stored ids in table order with their statuses |
| `Properties.StatusLoopSyncs` | conditions.py:463-477 | after the pass each selected row holds the service's current state and every other row is untouched |
| `Properties.StatusLoopQuiet` | conditions.py:463-466 | a pass over rows that agree with the service changes nothing |
| `Properties.StatusPassSyncs` | conditions.py:452-477 | after a status pass every stored row holds the service's current state |
| `Properties.StatusLoopSyncsAll` | conditions.py:463-477 | with a service that answers each id with its own record, a pass over a selection that lists every stored row with its status syncs every stored row |
| `Properties.DefaultRunSyncs` | conditions.py:528-538 | a completed default run leaves every candidate stored and every row in step with the service |
| `Properties.SyncedRunIsQuiet` | conditions.py:528-538 | a default run over stored candidates and rows in step with the service changes nothing |
| `Properties.RerunIsQuiet` | conditions.py:528-538 | running the default command again with the same candidates and an unchanged service inserts nothing, sends nothing, attempts no ticket and changes no row |
| `Properties.FinishEffect` | conditions.py:538 | the closing status check changes no id, flag or run state, and outside SendEmail mode it sends nothing |
| `Properties.IngestInvalidAction` | conditions.py:417-418 | with an unknown mode the candidate loop sends nothing, changes no existing row, and inserts at most one row, which stays unprocessed |
| `Properties.DispatchInvalidAction` | conditions.py:417-418 | with an unknown mode every command before the closing status check sends nothing, changes no existing row, and inserts at most one row, which stays unprocessed |
| `Properties.IngestKeepsStoredRows` | conditions.py:530-537 | the candidate loop leaves every row stored before it unchanged, because the action runs only for a record it has just inserted |
| `Properties.UnprocessedRowStaysUnprocessed` | conditions.py:528-538 | a row stored unprocessed before a default run is still stored and unprocessed after it |
| `Properties.InvalidActionIsSilent` | conditions.py:404-418 | with an unknown mode a whole run sends nothing, opens no ticket, flags no row processed and adds at most one, unprocessed, row |

## Left out

- HTTP fetching, the `requests` session with its retries, and `xmltodict` parsing (conditions.py:88-92, 160, 185, 529) are foreign I/O. The parsed records are the input `up`, the region records are folded into `Payload.regions`, and the candidate list is the input `candidates`. Parse shapes are not modelled: a single region parsed as a dict, a missing `regions` element, a missing required element, an empty element parsed as None, and a candidate list with zero or one `<data>` element. In the source those two crash at conditions.py:530-531, before line 538. The model runs the candidate loop over an empty or one-element list and then the status check, so `DefaultRunSyncs` and `RerunIsQuiet` also cover inputs where the source crashes.
- `wait()` (conditions.py:97-101) is a random delay with no logical effect.
- The SMTP connection and transport (conditions.py:62-64, 296-304): sending a message appends it to the outbox. Transport failures are not modelled.
- The Jira call (conditions.py:318) is foreign. Its outcome is the input `created`. As written, `JIRA` is never imported, so every attempt fails and `created` is always false in practice.
- SQL text, the sqlite cursor and commit, and the error printing in `execute`/`first_row` (conditions.py:79-83, 107-130) become map operations. A failing query is not modelled. In the source, `save_condition` would still return True after a failed INSERT.
- The unused select and the local `Subject`/`Description` in `execute_condition` (conditions.py:396-403) are omitted. They have no effect when the title, frontend type and status columns hold strings. An empty element parsed as None would make line 402 raise, and the model does not capture that crash.
- The service is one function `up` for the whole run. The read at insertion and the re-read in the closing status check of the same id return the same record. A state change between those two reads in one run, which in the source gives a new-record notice followed by a status notice, is not expressed.
- `list` printing (conditions.py:431-449): only its crash on a non-empty table is modelled.
- Configuration, logging setup, argument printing for `help`, and the start and end banners (conditions.py:52-74, 490-498, 510-519, 539-542) are left out. The configuration values are `Config`, and `datetime.today` is `Config.today`.
- `Properties.RerunIsQuiet`: proved for a service that answers each id with the record of that id (`FaithfulService`) and whose records do not change during or between the two runs. Without that, a re-read under a different id can update another row.
- `Properties.DefaultRunSyncs`: holds under the same `FaithfulService` assumption.
- `Properties.StatusLoopSyncs`: holds under the same `FaithfulService` assumption.
- `Properties.StatusPassSyncs`: holds under the same `FaithfulService` assumption.
- `Properties.StatusLoopSyncsAll`: holds under the same `FaithfulService` assumption.
- `Properties.StatusCheckOfRow`: stated for a re-read that returns the row's own id.

=== FILE: engine.dfy ===
/** The state `conditions.py` keeps between its functions, as one object: the
    `conditions` table, the outbox standing for the mail and ticket
    transports, and the module globals the functions share (`c_xml`,
    `geometry_description`, `subject`, `description`). Each method does what
    its Python function does, step by step, and is proved to have exactly the
    effect of the matching transition of `Reconcile`. */
module Conditions {
  import opened Records
  import opened Notices
  import opened Reconcile

  class Engine {
    const config: Config

    var ids: seq<string>
    var store: map<string, Row>
    var outbox: seq<Event>
    var run: RunState

    var cXml: Option<Payload>          // the record read last
    var geometryDescription: string    // its region description
    var subject: string
    var description: string

    ghost predicate Valid()
      reads this
    {
      TableValid(ids, store) && (cXml.Some? ==> Filled(cXml.value))
    }

    function State(): World
      reads this
    {
      World(ids, store, outbox, run)
    }

    /** A process start on an existing table; the globals start empty. */
    constructor (config: Config, ids: seq<string>, store: map<string, Row>)
      requires TableValid(ids, store)
      ensures Valid() && this.config == config
      ensures State() == World(ids, store, [], Running)
      ensures cXml == None && geometryDescription == "" && subject == "" && description == ""
    {
      this.config := config;
      this.ids := ids;
      this.store := store;
      outbox := [];
      run := Running;
      cXml := None;
      geometryDescription := "";
      subject := "";
      description := "";
    }

    /** read_condition on the fetched record: fill in the missing optional
        elements, then build the region description segment by segment. */
    method ReadCondition(fetched: Payload)
      requires Valid()
      modifies this`cXml, this`geometryDescription
      ensures Valid()
      ensures cXml == Some(WithDefaults(fetched))
      ensures geometryDescription == GeometryDescription(fetched.regions)
    {
      var c := fetched;
      if c.longText.None? {
        c := c.(longText := Some(""));
      }
      if c.weatherDescription.None? {
        c := c.(weatherDescription := Some(""));
      }
      if c.lang.None? {
        c := c.(lang := Some(""));
      }
      if c.riskDescription.None? {
        c := c.(riskDescription := Some(""));
      }
      assert c == WithDefaults(fetched);
      cXml := Some(c);
      geometryDescription := "";
      var regions := c.regions;
      for i := 0 to |regions|
        invariant cXml == Some(c)
        invariant geometryDescription == GeometryDescription(regions[..i])
      {
        assert regions[..i + 1][..i] == regions[..i];
        geometryDescription := geometryDescription + RegionSegment(regions[i]);
      }
      assert regions[..|regions|] == regions;
    }

    /** save_condition: True exactly when the read record's id was absent. */
    method Save() returns (saved: bool)
      requires Valid() && cXml.Some?
      modifies this`ids, this`store
      ensures Valid()
      ensures saved == (cXml.value.id !in old(store))
      ensures State() == Saved(old(State()), cXml.value, geometryDescription, config.today)
    {
      var c := cXml.value;
      saved := false;
      if c.id !in store {
        ids := ids + [c.id];
        store := store[c.id := NewRow(c, geometryDescription, config.today)];
        saved := true;
      }
    }

    /** send_message. */
    method SendMessage(subject: string, body: string)
      modifies this`outbox
      ensures outbox == old(outbox) + [Message(subject, body)]
    {
      outbox := outbox + [Message(subject, body)];
    }

    /** create_ticket, with the ticket service's answer as `created`. */
    method CreateTicket(summary: string, description: string, created: bool)
      modifies this`outbox
      ensures outbox == old(outbox) + TicketEvents(summary, description, created)
    {
      outbox := outbox + [TicketAttempt(summary, description, created)];
      if !created {
        SendMessage(TICKET_ERROR_SUBJECT, TICKET_ERROR_BODY);
      }
    }

    /** execute_condition for the read record. The notices carry the globals
        `subject` and `description`. */
    method ExecuteCondition(created: bool)
      requires Valid() && cXml.Some?
      modifies this`store, this`outbox, this`run
      ensures Valid()
      ensures State() == Executed(old(State()), cXml.value.id, config.action, subject, description, created)
    {
      var id := cXml.value.id;
      var done := Processed(store, id);
      if done.None? {
        run := Crashed(NO_ROW_CRASH);
        return;
      }
      if !done.value {
        if config.action == SEND_EMAIL {
          SendMessage(subject, description);
        } else if config.action == CREATE_JIRA_TICKET {
          CreateTicket(subject, description, created);
        } else if config.action == JIRA_AND_SEND_EMAIL {
          SendMessage(subject, description);
          CreateTicket(subject, description, created);
        } else {
          run := Exited(InvalidActionMessage(config.action));
          return;
        }
        store := store[id := store[id].(processed := PROCESSED)];
      }
    }

    /** fill_subject_description: the new-record notice texts from the
        stored row of the read record. */
    method FillSubjectDescription()
      requires cXml.Some?
      modifies this`subject, this`description, this`run
      ensures cXml.value.id in store ==>
        subject == NewSubject(store[cXml.value.id]) &&
        description == NewDescription(store[cXml.value.id], cXml.value.id, config.baseUrl) &&
        run == old(run)
      ensures cXml.value.id !in store ==>
        subject == old(subject) && description == old(description) && run == Crashed(NO_ROW_CRASH)
    {
      var id := cXml.value.id;
      if id !in store {
        run := Crashed(NO_ROW_CRASH);
        return;
      }
      var row := store[id];
      subject := NewSubject(row);
      description := NewDescription(row, id, config.baseUrl);
    }

    /** condition_status_changed for the read record. */
    method ConditionStatusChanged()
      requires Valid() && cXml.Some?
      modifies this`store, this`outbox
      ensures Valid()
      ensures State() == StatusChanged(old(State()), cXml.value, config.action)
    {
      var c := cXml.value;
      if c.id in store {
        store := store[c.id := store[c.id].(status := c.state)];
      }
      if config.action == SEND_EMAIL {
        SendMessage(StatusSubject(c.title, c.state), StatusBody(c.id));
      }
    }

    /** One iteration of status_stored_conditions: re-read the stored record
        and notify when its workflow state differs from the selected status. */
    method CheckStored(entry: (string, string), up: string -> Payload)
      requires Valid()
      modifies this`store, this`outbox, this`cXml, this`geometryDescription
      ensures Valid()
      ensures State() == StatusStep(old(State()), entry, up, config.action)
    {
      ReadCondition(up(entry.0));
      if cXml.value.state != entry.1 {
        ConditionStatusChanged();
      }
    }

    /** status_stored_conditions: re-read every stored record, in the order
        of the initial select, and compare with the status selected then. */
    method StatusStoredConditions(up: string -> Payload)
      requires Valid()
      modifies this`store, this`outbox, this`cXml, this`geometryDescription
      ensures Valid()
      ensures State() == StatusPass(old(State()), up, config.action)
    {
      var conditions := Snapshot(ids, store);
      ghost var target := StatusPass(State(), up, config.action);
      var i := 0;
      while i < |conditions|
        invariant 0 <= i <= |conditions|
        invariant Valid()
        invariant StatusLoop(State(), conditions[i..], up, config.action) == target
      {
        ghost var before := State();
        CheckStored(conditions[i], up);
        assert conditions[i..][0] == conditions[i] && conditions[i..][1..] == conditions[i + 1..];
        assert StatusLoop(before, conditions[i..], up, config.action)
            == StatusLoop(State(), conditions[i + 1..], up, config.action);
        i := i + 1;
      }
    }

    /** process: read the record `closureId` and execute the action for it. */
    method Process(closureId: string, up: string -> Payload, created: string -> bool)
      requires Valid()
      modifies this`store, this`outbox, this`run, this`cXml, this`geometryDescription
      ensures Valid()
      ensures State() == Executed(old(State()), WithDefaults(up(closureId)).id, config.action,
                                  subject, description, created(WithDefaults(up(closureId)).id))
    {
      ReadCondition(up(closureId));
      ExecuteCondition(created(cXml.value.id));
    }

    /** The candidate loop of the default run: read each candidate, save it
        and execute the action when it was newly saved, until the run ends. */
    method Ingest(candidates: seq<string>, up: string -> Payload, created: string -> bool)
      requires Valid()
      modifies this`ids, this`store, this`outbox, this`run, this`cXml, this`geometryDescription
      ensures Valid()
      ensures State() == IngestLoop(old(State()), candidates, up, config, subject, description, created)
    {
      ghost var target := IngestLoop(State(), candidates, up, config, subject, description, created);
      var i := 0;
      while i < |candidates| && run == Running
        invariant 0 <= i <= |candidates|
        invariant Valid()
        invariant IngestLoop(State(), candidates[i..], up, config, subject, description, created) == target
      {
        ghost var before := State();
        ReadCondition(up(candidates[i]));
        var saved := Save();
        if saved {
          ExecuteCondition(created(cXml.value.id));
        }
        assert State() == IngestOne(before, candidates[i], up, config, subject, description, created);
        assert candidates[i..][0] == candidates[i] && candidates[i..][1..] == candidates[i + 1..];
        assert IngestLoop(before, candidates[i..], up, config, subject, description, created)
            == IngestLoop(State(), candidates[i + 1..], up, config, subject, description, created);
        i := i + 1;
      }
    }

    /** main, with the command line after the program name in `args`. */
    method Run(args: seq<string>, candidates: seq<string>, up: string -> Payload, created: string -> bool)
      requires Valid() && run == Running
      modifies this
      ensures Valid()
      ensures subject == old(subject) && description == old(description)
      ensures State() == RunSpec(old(State()), args, candidates, up, config,
                                 subject, description, created)
    {
      if |args| > 0 {
        var cmd := args[0];
        if cmd == "-h" || cmd == "help" {
          run := Exited("");
          return;
        }
        if cmd == "list" && |store| > 0 {
          run := Crashed(LIST_CRASH);
          return;
        }
        if cmd == "process" {
          if |args| < 2 {
            run := Exited("");
            return;
          }
          Process(args[1], up, created);
        }
      } else {
        Ingest(candidates, up, created);
      }
      if run == Running {
        StatusStoredConditions(up);
      }
    }
  }
}

=== FILE: notices.dfy ===
/** What the notification side produces: messages and ticket attempts, the
    configured action modes, the fallback alert for a failed ticket and the
    texts of the status-change and new-record notices. */
module Notices {
  import opened Records

  /** One entry of the outbox: a message handed to the mail transport, or an
      attempt to open a ticket together with whether it was created. */
  datatype Event =
    | Message(subject: string, body: string)
    | TicketAttempt(summary: string, description: string, created: bool)

  const SEND_EMAIL := "SendEmail"
  const CREATE_JIRA_TICKET := "CreateJiraTicket"
  const JIRA_AND_SEND_EMAIL := "JiraAndSendEmail"

  const TICKET_ERROR_SUBJECT := "[ERROR] creating new Jira ticket: "
  const TICKET_ERROR_BODY := "Check application log file."

  const STATUS_SUBJECT_PREFIX := "CONDITIONS: Status was updated "
  const STATUS_ARROW := " -> "
  const STATUS_BODY_PREFIX := "Condition: www.outdooractive.ro/ro/r/"

  predicate ValidAction(action: string) {
    action == SEND_EMAIL || action == CREATE_JIRA_TICKET || action == JIRA_AND_SEND_EMAIL
  }

  function Messages(evs: seq<Event>): nat {
    if evs == [] then 0 else (if evs[0].Message? then 1 else 0) + Messages(evs[1..])
  }

  function Tickets(evs: seq<Event>): nat {
    if evs == [] then 0 else (if evs[0].TicketAttempt? then 1 else 0) + Tickets(evs[1..])
  }

  function FailedTickets(evs: seq<Event>): nat {
    if evs == [] then 0
    else (if evs[0].TicketAttempt? && !evs[0].created then 1 else 0) + FailedTickets(evs[1..])
  }

  lemma {:induction false} CountsAdd(a: seq<Event>, b: seq<Event>)
    ensures Messages(a + b) == Messages(a) + Messages(b)
    ensures Tickets(a + b) == Tickets(a) + Tickets(b)
    ensures FailedTickets(a + b) == FailedTickets(a) + FailedTickets(b)
    decreases |a|
  {
    if a == [] {
      assert a + b == b;
    } else {
      assert (a + b)[0] == a[0];
      assert (a + b)[1..] == a[1..] + b;
      CountsAdd(a[1..], b);
    }
  }

  /** Opening a ticket: one attempt, and when it fails one fixed alert. */
  function TicketEvents(summary: string, description: string, created: bool): (evs: seq<Event>)
    ensures Tickets(evs) == 1
    ensures FailedTickets(evs) == (if created then 0 else 1)
    ensures Messages(evs) == FailedTickets(evs)
    ensures evs[0] == TicketAttempt(summary, description, created)
    ensures !created ==> evs[|evs| - 1] == Message(TICKET_ERROR_SUBJECT, TICKET_ERROR_BODY)
  {
    var attempt := TicketAttempt(summary, description, created);
    if created then
      assert [attempt][1..] == [];
      [attempt]
    else
      var alert := Message(TICKET_ERROR_SUBJECT, TICKET_ERROR_BODY);
      assert [attempt, alert][1..] == [alert] && [alert][1..] == [];
      assert Messages([alert]) == 1 && Tickets([alert]) == 0 && FailedTickets([alert]) == 0;
      [attempt, alert]
  }

  /** What the configured action produces for a new record; None for a mode
      that is not one of the three known ones (the run exits instead). */
  function ActionEvents(action: string, subject: string, description: string, created: bool)
    : (r: Option<seq<Event>>)
    ensures r.Some? <==> ValidAction(action)
    ensures r.Some? ==> Tickets(r.value) == (if action == SEND_EMAIL then 0 else 1)
    ensures r.Some? ==> FailedTickets(r.value) == (if action != SEND_EMAIL && !created then 1 else 0)
    ensures r.Some? ==>
      Messages(r.value) == (if action == CREATE_JIRA_TICKET then 0 else 1) + FailedTickets(r.value)
    ensures action == SEND_EMAIL ==> r == Some([Message(subject, description)])
    ensures action == CREATE_JIRA_TICKET ==> r.value[0] == TicketAttempt(subject, description, created)
    ensures action == JIRA_AND_SEND_EMAIL ==>
      r.value[0] == Message(subject, description) &&
      r.value[1] == TicketAttempt(subject, description, created)
    ensures r.Some? && action != SEND_EMAIL && !created ==>
      r.value[|r.value| - 1] == Message(TICKET_ERROR_SUBJECT, TICKET_ERROR_BODY)
  {
    if action == SEND_EMAIL then Some([Message(subject, description)])
    else if action == CREATE_JIRA_TICKET then Some(TicketEvents(subject, description, created))
    else if action == JIRA_AND_SEND_EMAIL then
      CountsAdd([Message(subject, description)], TicketEvents(subject, description, created));
      Some([Message(subject, description)] + TicketEvents(subject, description, created))
    else None
  }

  function StatusSubject(title: string, state: string): string {
    STATUS_SUBJECT_PREFIX + title + STATUS_ARROW + state
  }

  function StatusBody(id: string): string {
    STATUS_BODY_PREFIX + id
  }

  /** The notice for a status change of record `id` to `state`. */
  function StatusMessage(id: string, title: string, state: string): (e: Event)
    ensures e.Message?
    ensures |e.subject| == |STATUS_SUBJECT_PREFIX| + |title| + |STATUS_ARROW| + |state|
    ensures |e.body| == |STATUS_BODY_PREFIX| + |id|
    ensures e.subject[..|STATUS_SUBJECT_PREFIX|] == STATUS_SUBJECT_PREFIX
    ensures e.subject[|STATUS_SUBJECT_PREFIX|..|STATUS_SUBJECT_PREFIX| + |title|] == title
    ensures e.subject[|e.subject| - |state|..] == state
    ensures e.body[..|STATUS_BODY_PREFIX|] == STATUS_BODY_PREFIX && e.body[|STATUS_BODY_PREFIX|..] == id
  {
    Infix(STATUS_SUBJECT_PREFIX, title, STATUS_ARROW + state);
    assert StatusSubject(title, state) == STATUS_SUBJECT_PREFIX + title + (STATUS_ARROW + state);
    Message(StatusSubject(title, state), StatusBody(id))
  }

  /** A status notice names its transition: for one title the subject tells
      the new state apart, and the body tells the record apart. */
  lemma StatusMessageIdentifies(id1: string, id2: string, title: string, s1: string, s2: string)
    requires StatusMessage(id1, title, s1) == StatusMessage(id2, title, s2)
    ensures id1 == id2 && s1 == s2
  {
    var n := |STATUS_BODY_PREFIX|;
    assert StatusBody(id1)[n..] == id1;
    assert StatusBody(id2)[n..] == id2;
    var m := |STATUS_SUBJECT_PREFIX + title + STATUS_ARROW|;
    assert StatusSubject(title, s1)[m..] == s1;
    assert StatusSubject(title, s2)[m..] == s2;
  }

  /** Python's `s[:n]` for n >= 0. */
  function Head(s: string, n: nat): (h: string)
    ensures |h| == if |s| < n then |s| else n
    ensures h == s[..|h|]
  {
    if |s| <= n then s else s[..n]
  }

  const NOTICE_RULE := "\n\r ---------------------------------------------------------------------------"

  /** `mid` sits in `pre + mid + post` right after `pre`. */
  lemma Infix(pre: string, mid: string, post: string)
    ensures (pre + mid + post)[|pre|..|pre| + |mid|] == mid
  {
    var s := pre + mid + post;
    forall k | 0 <= k < |mid|
      ensures s[|pre| + k] == mid[k]
    {
      assert s == pre + (mid + post);
    }
  }

  /** Subject of the new-record notice, from the stored row: the frontend
      type, the title and the status at fixed offsets, then the first ten
      characters of the inspection date at the end. */
  function NewSubject(r: Row): (s: string)
    ensures var ft, t, st, d := |r.frontendType|, |r.title|, |r.status|, Head(r.dayOfInspection, 10);
      |s| == 20 + ft + t + st + |d| &&
      s[..4] == "NEW " &&
      s[4..4 + ft] == r.frontendType &&
      s[6 + ft..6 + ft + t] == r.title &&
      s[14 + ft + t..14 + ft + t + st] == r.status &&
      s[|s| - |d|..] == d
  {
    var d := Head(r.dayOfInspection, 10);
    var a := "NEW " + r.frontendType + ": ";
    var b := a + r.title + " STATUS:";
    var c := b + r.status + " DATE:";
    Infix("NEW ", r.frontendType, ": ");
    Infix(a, r.title, " STATUS:");
    Infix(b, r.status, " DATE:");
    Infix(c, d, "");
    assert c + d + "" == c + d;
    assert (a + r.title + " STATUS:")[..|a|] == a;
    assert (b + r.status + " DATE:")[..|b|] == b;
    assert (c + d)[..|c|] == c;
    c + d
  }

  /** What a new-record body puts between the record link and the user link. */
  const USER_LABEL := NOTICE_RULE + "\n\r User:"

  /** Length of the part of a new-record body after the record link. */
  function UserTailLength(r: Row, baseUrl: string): nat {
    |USER_LABEL| + |baseUrl| + |r.userId|
  }

  /** The summary that opens a new-record body, up to the record link. */
  function DescriptionHead(r: Row): (h: string)
    ensures |h| >= 4 + |r.frontendType|
    ensures h[..4] == "NEW " && h[4..4 + |r.frontendType|] == r.frontendType
  {
    var rest := ": \n\r***" + r.title + "*** \n\r DATE: " + Head(r.dayOfInspection, 10)
      + " STATUS:" + r.status + "\n\r Condition:";
    Infix("NEW ", r.frontendType, rest);
    "NEW " + r.frontendType + rest
  }

  /** Body of the new-record notice: the summary, then the link to the record
      and the link to its author, both under the configured base URL. */
  function NewDescription(r: Row, id: string, baseUrl: string): (s: string)
    ensures |s| == |DescriptionHead(r)| + |baseUrl| + |id| + UserTailLength(r, baseUrl)
    ensures s[..4] == "NEW " && s[4..4 + |r.frontendType|] == r.frontendType
    ensures s[|s| - |baseUrl| - |r.userId|..] == baseUrl + r.userId
    ensures var e := |s| - UserTailLength(r, baseUrl);
            s[e - |baseUrl| - |id|..e] == baseUrl + id
  {
    var head := DescriptionHead(r);
    var link, user := baseUrl + id, baseUrl + r.userId;
    Infix(head, link, USER_LABEL + user);
    Infix(head + link + USER_LABEL, user, "");
    assert head + link + USER_LABEL + user + "" == head + link + (USER_LABEL + user);
    assert (head + link + (USER_LABEL + user))[..4 + |r.frontendType|] == head[..4 + |r.frontendType|];
    head + link + (USER_LABEL + user)
  }

  /** The body names its record: two new-record bodies for the same row and
      base URL are equal only when they link the same record id. */
  lemma NewDescriptionIdentifies(r: Row, id1: string, id2: string, baseUrl: string)
    requires NewDescription(r, id1, baseUrl) == NewDescription(r, id2, baseUrl)
    ensures id1 == id2
  {
    var s1, s2 := NewDescription(r, id1, baseUrl), NewDescription(r, id2, baseUrl);
    var e := |s1| - UserTailLength(r, baseUrl);
    assert (baseUrl + id1)[|baseUrl|..] == id1;
    assert (baseUrl + id2)[|baseUrl|..] == id2;
  }
}

=== FILE: properties.dfy ===
/** What the reconciliation engine guarantees across whole runs: the table
    invariant and the one-way processed flag, exact notice counts per action
    mode, and that a second run over an unchanged service does nothing. */
module Properties {
  import opened Records
  import opened Notices
  import opened Reconcile

  /** The detail service answers each id with the record of that id. */
  ghost predicate FaithfulService(up: string -> Payload) {
    forall k :: up(k).id == k
  }

  /** Number of snapshot entries whose re-read state differs from the
      status selected at the start of the pass. */
  function Changes(snap: seq<(string, string)>, up: string -> Payload): nat {
    if snap == [] then 0
    else (if WithDefaults(up(snap[0].0)).state != snap[0].1 then 1 else 0) + Changes(snap[1..], up)
  }

  lemma EvolvesTransitive(a: World, b: World, c: World)
    requires Evolves(a, b) && Evolves(b, c)
    ensures Evolves(a, c)
  {
    forall k | k in a.store
      ensures k in c.store && RowEvolves(a.store[k], c.store[k])
    {
      assert k in b.store && RowEvolves(a.store[k], b.store[k]);
    }
  }

  /** One candidate keeps the table invariant and only appends. */
  lemma IngestOneKeeps(w: World, candidate: string, up: string -> Payload, cfg: Config,
                       subject: string, description: string, created: string -> bool)
    requires Valid(w)
    ensures var r := IngestOne(w, candidate, up, cfg, subject, description, created);
            Valid(r) && Evolves(w, r)
  {
    var c := WithDefaults(up(candidate));
    var r := IngestOne(w, candidate, up, cfg, subject, description, created);
    if c.id !in w.store {
      assert c.id !in w.ids;
      assert r.ids == w.ids + [c.id];
      assert r.store[c.id].id == c.id;
      assert r.store[c.id].processed == PROCESSED || r.store[c.id].processed == UNPROCESSED;
      assert forall k :: k in r.store <==> k in r.ids;
      assert w.outbox <= r.outbox;
    }
  }

  lemma {:induction false} IngestLoopKeeps(w: World, candidates: seq<string>, up: string -> Payload,
                                           cfg: Config, subject: string, description: string,
                                           created: string -> bool)
    requires Valid(w)
    ensures var r := IngestLoop(w, candidates, up, cfg, subject, description, created);
            Valid(r) && Evolves(w, r)
    decreases |candidates|
  {
    if candidates != [] && w.run == Running {
      var w1 := IngestOne(w, candidates[0], up, cfg, subject, description, created);
      IngestOneKeeps(w, candidates[0], up, cfg, subject, description, created);
      IngestLoopKeeps(w1, candidates[1..], up, cfg, subject, description, created);
      EvolvesTransitive(w, w1, IngestLoop(w1, candidates[1..], up, cfg, subject, description, created));
    }
  }

  /** One row of the status pass keeps the table invariant, touches only
      the status column, and never opens a ticket. */
  lemma StatusStepKeeps(w: World, entry: (string, string), up: string -> Payload, action: string)
    requires Valid(w)
    ensures var r := StatusStep(w, entry, up, action);
            Valid(r) && Evolves(w, r) &&
            r.ids == w.ids && r.run == w.run && r.store.Keys == w.store.Keys &&
            (forall k :: k in w.store ==> r.store[k].processed == w.store[k].processed)
  {
    var c := WithDefaults(up(entry.0));
    if c.state != entry.1 {
      var r := StatusChanged(w, c, action);
      assert forall k :: k in w.store ==> r.store[k] == w.store[k].(status := r.store[k].status);
      assert w.outbox <= r.outbox;
    }
  }

  lemma StatusStepCounts(w: World, entry: (string, string), up: string -> Payload, action: string)
    ensures var r := StatusStep(w, entry, up, action);
            Tickets(r.outbox) == Tickets(w.outbox) &&
            FailedTickets(r.outbox) == FailedTickets(w.outbox) &&
            (action != SEND_EMAIL ==> r.outbox == w.outbox) &&
            (action == SEND_EMAIL ==>
               Messages(r.outbox) == Messages(w.outbox) + Changes([entry], up))
  {
    var c := WithDefaults(up(entry.0));
    assert [entry][1..] == [];
    if c.state != entry.1 {
      CountsAdd(w.outbox, [StatusMessage(c.id, c.title, c.state)]);
    }
  }

  /** The check of one stored row against a faithful re-read: the status is
      overwritten exactly when the two differ, then with the re-read state;
      no other row changes; only SendEmail mode sends, one notice naming the
      record and its new state. */
  lemma StatusCheckOfRow(w: World, k: string, up: string -> Payload, action: string)
    requires k in w.store && WithDefaults(up(k)).id == k
    ensures var stored := w.store[k].status;
            var c := WithDefaults(up(k));
            var r := StatusStep(w, (k, stored), up, action);
            k in r.store && r.store[k].status == c.state &&
            (r.store != w.store <==> c.state != stored) &&
            (c.state == stored ==> r == w) &&
            (forall k' :: k' in w.store && k' != k ==> r.store[k'] == w.store[k']) &&
            (c.state != stored && action == SEND_EMAIL ==>
               r.outbox == w.outbox + [StatusMessage(k, c.title, c.state)]) &&
            (action != SEND_EMAIL ==> r.outbox == w.outbox)
  {
    var stored := w.store[k].status;
    var c := WithDefaults(up(k));
    if c.state != stored {
      var r := StatusStep(w, (k, stored), up, action);
      assert r.store[k] != w.store[k];
    }
  }

  /** The status pass keeps the table invariant and only overwrites statuses. */
  lemma {:induction false} StatusLoopKeeps(w: World, snap: seq<(string, string)>,
                                           up: string -> Payload, action: string)
    requires Valid(w)
    ensures var r := StatusLoop(w, snap, up, action);
            Valid(r) && Evolves(w, r) &&
            r.ids == w.ids && r.run == w.run && r.store.Keys == w.store.Keys &&
            (forall k :: k in w.store ==> r.store[k].processed == w.store[k].processed)
    decreases |snap|
  {
    if snap != [] {
      var w1 := StatusStep(w, snap[0], up, action);
      StatusStepKeeps(w, snap[0], up, action);
      StatusLoopKeeps(w1, snap[1..], up, action);
      EvolvesTransitive(w, w1, StatusLoop(w1, snap[1..], up, action));
    }
  }

  /** The status pass never opens a ticket and sends one notice per changed
      row in SendEmail mode and none otherwise. */
  lemma {:induction false} StatusLoopCounts(w: World, snap: seq<(string, string)>,
                                            up: string -> Payload, action: string)
    ensures var r := StatusLoop(w, snap, up, action);
            Tickets(r.outbox) == Tickets(w.outbox) &&
            FailedTickets(r.outbox) == FailedTickets(w.outbox) &&
            (action != SEND_EMAIL ==> r.outbox == w.outbox) &&
            (action == SEND_EMAIL ==> Messages(r.outbox) == Messages(w.outbox) + Changes(snap, up))
    decreases |snap|
  {
    if snap != [] {
      var w1 := StatusStep(w, snap[0], up, action);
      StatusStepCounts(w, snap[0], up, action);
      StatusLoopCounts(w1, snap[1..], up, action);
    }
  }

  lemma DispatchKeeps(w: World, args: seq<string>, candidates: seq<string>, up: string -> Payload,
                      cfg: Config, subject: string, description: string, created: string -> bool)
    requires Valid(w)
    ensures var r := Dispatch(w, args, candidates, up, cfg, subject, description, created);
            Valid(r) && Evolves(w, r)
  {
    var r := Dispatch(w, args, candidates, up, cfg, subject, description, created);
    if |args| == 0 {
      IngestLoopKeeps(w, candidates, up, cfg, subject, description, created);
    } else if args[0] == "process" && |args| >= 2 {
      var id := WithDefaults(up(args[1])).id;
      ExecutedKeeps(w, id, cfg.action, subject, description, created(id));
    } else {
      assert r.ids == w.ids && r.store == w.store && r.outbox == w.outbox;
    }
  }

  lemma ExecutedKeeps(w: World, id: string, action: string, subject: string, description: string,
                      created: bool)
    requires Valid(w)
    ensures var r := Executed(w, id, action, subject, description, created);
            Valid(r) && Evolves(w, r)
  {
  }

  lemma FinishKeeps(w: World, up: string -> Payload, action: string)
    requires Valid(w)
    ensures Valid(Finish(w, up, action)) && Evolves(w, Finish(w, up, action))
  {
    if w.run == Running {
      StatusLoopKeeps(w, Snapshot(w.ids, w.store), up, action);
    }
  }

  /** Every command keeps the table invariant: ids stay unique (no id is
      inserted twice), rows are never deleted, a row changes only its status
      and its flag, the flag moves only from "n" to "y", and the outbox only
      grows. */
  lemma RunKeeps(w: World, args: seq<string>, candidates: seq<string>, up: string -> Payload,
                 cfg: Config, subject: string, description: string, created: string -> bool)
    requires Valid(w)
    ensures var r := RunSpec(w, args, candidates, up, cfg, subject, description, created);
            Valid(r) && Evolves(w, r)
  {
    var w1 := Dispatch(w, args, candidates, up, cfg, subject, description, created);
    DispatchKeeps(w, args, candidates, up, cfg, subject, description, created);
    FinishKeeps(w1, up, cfg.action);
    EvolvesTransitive(w, w1, Finish(w1, up, cfg.action));
  }

  /** Under a known action mode every newly inserted record is notified
      exactly as the mode says: one message (SendEmail), one ticket attempt
      (CreateJiraTicket), one message and one ticket attempt
      (JiraAndSendEmail), plus one alert per failed ticket; the run goes on. */
  lemma {:induction false} IngestCounts(w: World, candidates: seq<string>, up: string -> Payload,
                                        cfg: Config, subject: string, description: string,
                                        created: string -> bool)
    requires ValidAction(cfg.action)
    ensures var r := IngestLoop(w, candidates, up, cfg, subject, description, created);
            var n := |r.ids| - |w.ids|;
            n >= 0 && r.run == w.run &&
            Tickets(r.outbox) == Tickets(w.outbox) + (if cfg.action == SEND_EMAIL then 0 else n) &&
            (cfg.action == SEND_EMAIL ==> FailedTickets(r.outbox) == FailedTickets(w.outbox)) &&
            Messages(r.outbox) - Messages(w.outbox)
              == (if cfg.action == CREATE_JIRA_TICKET then 0 else n)
                 + (FailedTickets(r.outbox) - FailedTickets(w.outbox))
    decreases |candidates|
  {
    if candidates != [] && w.run == Running {
      var c := WithDefaults(up(candidates[0]));
      var w1 := IngestOne(w, candidates[0], up, cfg, subject, description, created);
      if c.id !in w.store {
        var evs := ActionEvents(cfg.action, subject, description, created(c.id)).value;
        CountsAdd(w.outbox, evs);
        assert w1.outbox == w.outbox + evs && |w1.ids| == |w.ids| + 1 && w1.run == w.run;
      }
      IngestCounts(w1, candidates[1..], up, cfg, subject, description, created);
    }
  }

  /** Under a known action mode every row inserted by the candidate loop
      ends up processed. */
  lemma {:induction false} IngestMarksEveryInsert(w: World, candidates: seq<string>,
                                                  up: string -> Payload, cfg: Config,
                                                  subject: string, description: string,
                                                  created: string -> bool)
    requires Valid(w) && ValidAction(cfg.action)
    ensures var r := IngestLoop(w, candidates, up, cfg, subject, description, created);
            forall j :: |w.ids| <= j < |r.ids| ==> r.ids[j] in r.store && IsProcessed(r.store[r.ids[j]])
    decreases |candidates|
  {
    if candidates != [] && w.run == Running {
      var c := WithDefaults(up(candidates[0]));
      var w1 := IngestOne(w, candidates[0], up, cfg, subject, description, created);
      var r := IngestLoop(w1, candidates[1..], up, cfg, subject, description, created);
      IngestOneKeeps(w, candidates[0], up, cfg, subject, description, created);
      IngestLoopKeeps(w1, candidates[1..], up, cfg, subject, description, created);
      IngestMarksEveryInsert(w1, candidates[1..], up, cfg, subject, description, created);
      if c.id !in w.store {
        assert w1.ids == w.ids + [c.id] && IsProcessed(w1.store[c.id]);
        assert r.ids[|w.ids|] == c.id;
        assert RowEvolves(w1.store[c.id], r.store[c.id]);
      } else {
        assert w1 == w;
      }
    }
  }

  /** A run that is still going after the candidate loop has stored every
      candidate's record. */
  lemma {:induction false} IngestStoresCandidates(w: World, candidates: seq<string>,
                                                  up: string -> Payload, cfg: Config,
                                                  subject: string, description: string,
                                                  created: string -> bool)
    requires Valid(w)
    ensures var r := IngestLoop(w, candidates, up, cfg, subject, description, created);
            r.run == Running ==>
              forall i :: 0 <= i < |candidates| ==> WithDefaults(up(candidates[i])).id in r.store
    decreases |candidates|
  {
    if candidates != [] && w.run == Running {
      var w1 := IngestOne(w, candidates[0], up, cfg, subject, description, created);
      IngestOneKeeps(w, candidates[0], up, cfg, subject, description, created);
      IngestLoopKeeps(w1, candidates[1..], up, cfg, subject, description, created);
      IngestStoresCandidates(w1, candidates[1..], up, cfg, subject, description, created);
      forall i | 1 <= i < |candidates|
        ensures candidates[i] == candidates[1..][i - 1]
      {
      }
    }
  }

  /** Candidates whose records are all stored change nothing. */
  lemma {:induction false} IngestQuiet(w: World, candidates: seq<string>, up: string -> Payload,
                                       cfg: Config, subject: string, description: string,
                                       created: string -> bool)
    requires forall i :: 0 <= i < |candidates| ==> WithDefaults(up(candidates[i])).id in w.store
    ensures IngestLoop(w, candidates, up, cfg, subject, description, created) == w
    decreases |candidates|
  {
    if candidates != [] && w.run == Running {
      assert IngestOne(w, candidates[0], up, cfg, subject, description, created) == w;
      forall i | 0 <= i < |candidates[1..]|
        ensures WithDefaults(up(candidates[1..][i])).id in w.store
      {
        assert candidates[1..][i] == candidates[i + 1];
      }
      IngestQuiet(w, candidates[1..], up, cfg, subject, description, created);
    }
  }

  lemma {:induction false} SnapshotFacts(ids: seq<string>, store: map<string, Row>)
    requires forall i :: 0 <= i < |ids| ==> ids[i] in store
    ensures var snap := Snapshot(ids, store);
            |snap| == |ids| &&
            forall j :: 0 <= j < |ids| ==> snap[j] == (ids[j], store[ids[j]].status)
    decreases |ids|
  {
    if ids != [] {
      SnapshotFacts(ids[1..], store);
    }
  }

  /** After a status pass over a snapshot taken just before it, with a
      faithful service, each snapshot row holds the service's current state
      and every other row is untouched. */
  lemma {:induction false} StatusLoopSyncs(w: World, snap: seq<(string, string)>,
                                           up: string -> Payload, action: string)
    requires FaithfulService(up)
    requires forall j :: 0 <= j < |snap| ==> snap[j].0 in w.store && w.store[snap[j].0].status == snap[j].1
    requires forall i, j :: 0 <= i < j < |snap| ==> snap[i].0 != snap[j].0
    ensures var r := StatusLoop(w, snap, up, action);
            r.store.Keys == w.store.Keys &&
            (forall j :: 0 <= j < |snap| ==> r.store[snap[j].0].status == WithDefaults(up(snap[j].0)).state) &&
            (forall k :: k in w.store && (forall j :: 0 <= j < |snap| ==> snap[j].0 != k) ==>
                           r.store[k] == w.store[k])
    decreases |snap|
  {
    if snap != [] {
      var k0 := snap[0].0;
      var c := WithDefaults(up(k0));
      assert c.id == k0;
      var w1 := StatusStep(w, snap[0], up, action);
      assert w1.store.Keys == w.store.Keys;
      assert w1.store[k0].status == c.state;
      assert forall k :: k in w.store && k != k0 ==> w1.store[k] == w.store[k];
      var rest := snap[1..];
      forall j | 0 <= j < |rest|
        ensures rest[j].0 in w1.store && w1.store[rest[j].0].status == rest[j].1
      {
        assert rest[j] == snap[j + 1];
      }
      StatusLoopSyncs(w1, rest, up, action);
      var r := StatusLoop(w1, rest, up, action);
      forall j | 0 <= j < |rest| ensures rest[j].0 != k0 {
        assert rest[j] == snap[j + 1];
      }
      forall j | 0 <= j < |snap|
        ensures r.store[snap[j].0].status == WithDefaults(up(snap[j].0)).state
      {
        if j > 0 {
          assert snap[j] == rest[j - 1];
        }
      }
      forall k | k in w.store && (forall j :: 0 <= j < |snap| ==> snap[j].0 != k)
        ensures r.store[k] == w.store[k]
      {
        assert k != k0;
        forall j | 0 <= j < |rest| ensures rest[j].0 != k {
          assert rest[j] == snap[j + 1];
        }
      }
    }
  }

  /** A pass over rows that all agree with the service changes nothing. */
  lemma {:induction false} StatusLoopQuiet(w: World, snap: seq<(string, string)>,
                                           up: string -> Payload, action: string)
    requires forall j :: 0 <= j < |snap| ==> WithDefaults(up(snap[j].0)).state == snap[j].1
    ensures StatusLoop(w, snap, up, action) == w
    decreases |snap|
  {
    if snap != [] {
      forall j | 0 <= j < |snap[1..]|
        ensures WithDefaults(up(snap[1..][j].0)).state == snap[1..][j].1
      {
        assert snap[1..][j] == snap[j + 1];
      }
      StatusLoopQuiet(w, snap[1..], up, action);
    }
  }

  /** With a faithful service, a status pass leaves every stored row holding
      the service's current state. */
  lemma StatusPassSyncs(w: World, up: string -> Payload, action: string)
    requires Valid(w) && FaithfulService(up)
    ensures var r := StatusPass(w, up, action);
            Valid(r) && r.store.Keys == w.store.Keys && r.run == w.run &&
            (forall k :: k in r.store ==> r.store[k].status == WithDefaults(up(k)).state)
  {
    StatusLoopKeeps(w, Snapshot(w.ids, w.store), up, action);
    StatusPassSyncsRows(w, up, action);
  }

  /** Helper of StatusPassSyncs: the syncing half, proved apart to keep the
      proof small. */
  lemma StatusPassSyncsRows(w: World, up: string -> Payload, action: string)
    requires Valid(w) && FaithfulService(up)
    ensures var r := StatusPass(w, up, action);
            forall k :: k in w.store ==> k in r.store && r.store[k].status == WithDefaults(up(k)).state
  {
    SnapshotFacts(w.ids, w.store);
    StatusLoopSyncsAll(w, Snapshot(w.ids, w.store), up, action);
  }

  /** A pass over a snapshot that lists every stored row with its status
      syncs every stored row. */
  lemma StatusLoopSyncsAll(w: World, snap: seq<(string, string)>, up: string -> Payload, action: string)
    requires Valid(w) && FaithfulService(up)
    requires |snap| == |w.ids| &&
             forall j :: 0 <= j < |w.ids| ==> snap[j] == (w.ids[j], w.store[w.ids[j]].status)
    ensures var r := StatusLoop(w, snap, up, action);
            forall k :: k in w.store ==> k in r.store && r.store[k].status == WithDefaults(up(k)).state
  {
    var r := StatusLoop(w, snap, up, action);
    StatusLoopSyncs(w, snap, up, action);
    forall k | k in w.store
      ensures k in r.store && r.store[k].status == WithDefaults(up(k)).state
    {
      var j :| 0 <= j < |w.ids| && w.ids[j] == k;
      assert snap[j].0 == k;
    }
  }

  /** A default run that completes leaves every candidate's record stored
      and every stored row holding the service's current state. */
  lemma DefaultRunSyncs(w: World, candidates: seq<string>, up: string -> Payload, cfg: Config,
                        subject: string, description: string, created: string -> bool)
    requires Valid(w) && FaithfulService(up)
    requires RunSpec(w, [], candidates, up, cfg, subject, description, created).run == Running
    ensures var r := RunSpec(w, [], candidates, up, cfg, subject, description, created);
            Valid(r) &&
            (forall i :: 0 <= i < |candidates| ==> WithDefaults(up(candidates[i])).id in r.store) &&
            (forall k :: k in r.store ==> r.store[k].status == WithDefaults(up(k)).state)
  {
    var wi := IngestLoop(w, candidates, up, cfg, subject, description, created);
    assert wi.run == Running && Valid(wi) &&
           forall i :: 0 <= i < |candidates| ==> WithDefaults(up(candidates[i])).id in wi.store
    by {
      assert RunSpec(w, [], candidates, up, cfg, subject, description, created) == Finish(wi, up, cfg.action);
      IngestLoopKeeps(w, candidates, up, cfg, subject, description, created);
      IngestStoresCandidates(w, candidates, up, cfg, subject, description, created);
    }
    assert RunSpec(w, [], candidates, up, cfg, subject, description, created) == StatusPass(wi, up, cfg.action);
    StatusPassSyncs(wi, up, cfg.action);
  }

  /** A default run over stored candidates and rows that agree with the
      service changes nothing. */
  lemma SyncedRunIsQuiet(w: World, candidates: seq<string>, up: string -> Payload, cfg: Config,
                         subject: string, description: string, created: string -> bool)
    requires Valid(w) && w.run == Running
    requires forall i :: 0 <= i < |candidates| ==> WithDefaults(up(candidates[i])).id in w.store
    requires forall k :: k in w.store ==> w.store[k].status == WithDefaults(up(k)).state
    ensures RunSpec(w, [], candidates, up, cfg, subject, description, created) == w
  {
    IngestQuiet(w, candidates, up, cfg, subject, description, created);
    assert Dispatch(w, [], candidates, up, cfg, subject, description, created) == w;
    var snap := Snapshot(w.ids, w.store);
    SnapshotFacts(w.ids, w.store);
    StatusLoopQuiet(w, snap, up, cfg.action);
  }

  /** Running the default command a second time, with the same candidates
      and a service whose records have not changed, inserts no row, sends no
      message, attempts no ticket and changes no row: the run is idempotent.
      The second run may even meet a different ticket service. */
  lemma RerunIsQuiet(w: World, candidates: seq<string>, up: string -> Payload, cfg: Config,
                     subject: string, description: string,
                     created: string -> bool, createdAgain: string -> bool)
    requires Valid(w) && FaithfulService(up)
    requires RunSpec(w, [], candidates, up, cfg, subject, description, created).run == Running
    ensures var w1 := RunSpec(w, [], candidates, up, cfg, subject, description, created);
            RunSpec(w1, [], candidates, up, cfg, subject, description, createdAgain) == w1
  {
    DefaultRunSyncs(w, candidates, up, cfg, subject, description, created);
    var w1 := RunSpec(w, [], candidates, up, cfg, subject, description, created);
    SyncedRunIsQuiet(w1, candidates, up, cfg, subject, description, createdAgain);
  }

  /** Under an unknown action mode a run sends nothing and opens no ticket,
      marks no row processed, and inserts at most the first new record,
      which stays unprocessed. */
  lemma {:induction false} IngestInvalidAction(w: World, candidates: seq<string>,
                                               up: string -> Payload, cfg: Config,
                                               subject: string, description: string,
                                               created: string -> bool)
    requires !ValidAction(cfg.action)
    ensures var r := IngestLoop(w, candidates, up, cfg, subject, description, created);
            r.outbox == w.outbox && |r.ids| <= |w.ids| + 1 && w.store.Keys <= r.store.Keys &&
            (forall k :: k in w.store ==> r.store[k] == w.store[k]) &&
            (forall k :: k in r.store && k !in w.store ==> r.store[k].processed == UNPROCESSED)
    decreases |candidates|
  {
    if candidates != [] && w.run == Running {
      var c := WithDefaults(up(candidates[0]));
      if c.id !in w.store {
        var w1 := IngestOne(w, candidates[0], up, cfg, subject, description, created);
        assert w1.run.Exited?;
      } else {
        IngestInvalidAction(w, candidates[1..], up, cfg, subject, description, created);
      }
    }
  }

  /** The candidate loop never touches a row that was stored before it:
      the action runs only for a record it has just inserted. */
  lemma {:induction false} IngestKeepsStoredRows(w: World, candidates: seq<string>,
                                                 up: string -> Payload, cfg: Config,
                                                 subject: string, description: string,
                                                 created: string -> bool)
    ensures var r := IngestLoop(w, candidates, up, cfg, subject, description, created);
            forall k :: k in w.store ==> k in r.store && r.store[k] == w.store[k]
    decreases |candidates|
  {
    if candidates != [] && w.run == Running {
      var w1 := IngestOne(w, candidates[0], up, cfg, subject, description, created);
      IngestKeepsStoredRows(w1, candidates[1..], up, cfg, subject, description, created);
    }
  }

  /** A row stored unprocessed before a default run is still unprocessed
      after it: no later default run dispatches it. */
  lemma UnprocessedRowStaysUnprocessed(w: World, candidates: seq<string>, up: string -> Payload,
                                       cfg: Config, subject: string, description: string,
                                       created: string -> bool, k: string)
    requires Valid(w) && k in w.store && !IsProcessed(w.store[k])
    ensures var r := RunSpec(w, [], candidates, up, cfg, subject, description, created);
            k in r.store && !IsProcessed(r.store[k])
  {
    var w1 := IngestLoop(w, candidates, up, cfg, subject, description, created);
    IngestKeepsStoredRows(w, candidates, up, cfg, subject, description, created);
    IngestLoopKeeps(w, candidates, up, cfg, subject, description, created);
    FinishEffect(w1, up, cfg.action);
  }

  /** The closing status check never changes which rows exist, their flags
      or the run state, and outside SendEmail mode it sends nothing. */
  lemma FinishEffect(w: World, up: string -> Payload, action: string)
    requires Valid(w)
    ensures var r := Finish(w, up, action);
            r.ids == w.ids && r.run == w.run && r.store.Keys == w.store.Keys &&
            (forall k :: k in w.store ==> r.store[k].processed == w.store[k].processed) &&
            (action != SEND_EMAIL ==> r.outbox == w.outbox)
  {
    if w.run == Running {
      StatusLoopKeeps(w, Snapshot(w.ids, w.store), up, action);
      StatusLoopCounts(w, Snapshot(w.ids, w.store), up, action);
    }
  }

  lemma DispatchInvalidAction(w: World, args: seq<string>, candidates: seq<string>,
                              up: string -> Payload, cfg: Config, subject: string,
                              description: string, created: string -> bool)
    requires !ValidAction(cfg.action)
    ensures var r := Dispatch(w, args, candidates, up, cfg, subject, description, created);
            r.outbox == w.outbox && |r.ids| <= |w.ids| + 1 && w.store.Keys <= r.store.Keys &&
            (forall k :: k in w.store ==> r.store[k] == w.store[k]) &&
            (forall k :: k in r.store && k !in w.store ==> r.store[k].processed == UNPROCESSED)
  {
    if |args| == 0 {
      IngestInvalidAction(w, candidates, up, cfg, subject, description, created);
    }
  }

  lemma InvalidActionIsSilent(w: World, args: seq<string>, candidates: seq<string>,
                              up: string -> Payload, cfg: Config, subject: string,
                              description: string, created: string -> bool)
    requires Valid(w) && !ValidAction(cfg.action)
    ensures var r := RunSpec(w, args, candidates, up, cfg, subject, description, created);
            r.outbox == w.outbox && |r.ids| <= |w.ids| + 1 && w.store.Keys <= r.store.Keys &&
            (forall k :: k in w.store ==> r.store[k].processed == w.store[k].processed) &&
            (forall k :: k in r.store && k !in w.store ==> r.store[k].processed == UNPROCESSED)
  {
    var w1 := Dispatch(w, args, candidates, up, cfg, subject, description, created);
    DispatchInvalidAction(w, args, candidates, up, cfg, subject, description, created);
    DispatchKeeps(w, args, candidates, up, cfg, subject, description, created);
    FinishEffect(w1, up, cfg.action);
  }
}

=== FILE: reconcile.dfy ===
/** The reconciliation engine as transitions on a value: the `conditions`
    table (row order and rows by id), the outbox of messages and ticket
    attempts, and whether the run is still going. Each transition is the
    effect of one function of `conditions.py`; the class in `Conditions`
    is proved to have exactly these effects. */
module Reconcile {
  import opened Records
  import opened Notices

  /** How far a run got: still going, ended by `exit`/`sys.exit` with its
      message, or stopped by an uncaught exception. */
  datatype RunState = Running | Exited(message: string) | Crashed(reason: string)

  /** Settings read from the configuration file, and the date of the run. */
  datatype Config = Config(action: string, baseUrl: string, today: string)

  /** Table rows in storage order, the rows by id, the outbox, the run state. */
  datatype World = World(ids: seq<string>, store: map<string, Row>, outbox: seq<Event>, run: RunState)

  const NO_ROW_CRASH := "execute_condition: no stored row for the condition"
  const LIST_CRASH := "list: row index 6 out of range"

  function InvalidActionMessage(action: string): string {
    "Invalid Action->Action: " + action
  }

  /** The table's own invariant: ids are unique and list exactly the stored
      rows, each row sits under its own id and carries a "y"/"n" flag. */
  ghost predicate TableValid(ids: seq<string>, store: map<string, Row>) {
    (forall i, j :: 0 <= i < j < |ids| ==> ids[i] != ids[j]) &&
    (forall k :: k in store <==> k in ids) &&
    (forall k :: k in store ==> store[k].id == k &&
                                (store[k].processed == PROCESSED || store[k].processed == UNPROCESSED))
  }

  ghost predicate Valid(w: World) {
    TableValid(w.ids, w.store)
  }

  /** A row may change only its status and may only move its flag from
      "n" to "y"; everything else, the region description included, stays. */
  ghost predicate RowEvolves(r: Row, r': Row) {
    r' == r.(status := r'.status, processed := r'.processed) &&
    (r'.processed == r.processed || (r.processed == UNPROCESSED && r'.processed == PROCESSED))
  }

  /** Rows are only appended and never deleted, the outbox only grows. */
  ghost predicate Evolves(w: World, w': World) {
    w.ids <= w'.ids &&
    w.outbox <= w'.outbox &&
    (forall k :: k in w.store ==> k in w'.store && RowEvolves(w.store[k], w'.store[k]))
  }

  /** save_condition: insert the read record exactly when its id is absent. */
  function Saved(w: World, c: Payload, geometryDescription: string, today: string): (r: World)
    requires Filled(c)
    ensures r.outbox == w.outbox && r.run == w.run
    ensures r.store.Keys == w.store.Keys + {c.id}
    ensures forall k :: k in w.store ==> r.store[k] == w.store[k]
    ensures c.id in w.store ==> r == w
    ensures c.id !in w.store ==> r.ids == w.ids + [c.id]
    ensures c.id !in w.store ==>
      r.store[c.id] == NewRow(c, geometryDescription, today) &&
      r.store[c.id].id == c.id && r.store[c.id].status == c.state &&
      r.store[c.id].processed == UNPROCESSED &&
      r.store[c.id].dateProcessed == today && r.store[c.id].geometryDescription == geometryDescription
  {
    if c.id in w.store then w
    else w.(ids := w.ids + [c.id], store := w.store[c.id := NewRow(c, geometryDescription, today)])
  }

  /** processed: the stored flag of the row `id` says the action has run;
      None when no row has that id, where reading the flag of the missing
      first row raises. */
  function Processed(store: map<string, Row>, id: string): (r: Option<bool>)
    ensures r.None? <==> id !in store
    ensures r == Some(true) <==> id in store && store[id].processed == PROCESSED
    ensures r == Some(false) <==> id in store && store[id].processed != PROCESSED
  {
    if id in store then Some(store[id].processed == PROCESSED) else None
  }

  /** execute_condition for the record `id`: nothing for a processed row;
      otherwise run the action and mark the row, or exit on an unknown mode. */
  function Executed(w: World, id: string, action: string, subject: string, description: string,
                    created: bool): (r: World)
    ensures r.ids == w.ids && r.store.Keys == w.store.Keys
    ensures id !in w.store ==> r == w.(run := Crashed(NO_ROW_CRASH))
    ensures id in w.store && IsProcessed(w.store[id]) ==> r == w
    ensures id in w.store && !IsProcessed(w.store[id]) && !ValidAction(action) ==>
      r == w.(run := Exited(InvalidActionMessage(action)))
    ensures id in w.store && !IsProcessed(w.store[id]) && ValidAction(action) ==>
      r.run == w.run &&
      r.outbox == w.outbox + ActionEvents(action, subject, description, created).value &&
      r.store == w.store[id := w.store[id].(processed := PROCESSED)]
  {
    match Processed(w.store, id)
    case None => w.(run := Crashed(NO_ROW_CRASH))
    case Some(done) =>
      if done then w
      else match ActionEvents(action, subject, description, created)
      case None => w.(run := Exited(InvalidActionMessage(action)))
      case Some(evs) =>
        w.(outbox := w.outbox + evs, store := w.store[id := w.store[id].(processed := PROCESSED)])
  }

  /** condition_status_changed for the read record `c`: overwrite the stored
      status (no-op when no row has that id), and notify only in SendEmail mode. */
  function StatusChanged(w: World, c: Payload, action: string): (r: World)
    ensures r.ids == w.ids && r.run == w.run && r.store.Keys == w.store.Keys
    ensures forall k :: k in w.store && k != c.id ==> r.store[k] == w.store[k]
    ensures c.id in w.store ==> r.store[c.id] == w.store[c.id].(status := c.state)
    ensures action == SEND_EMAIL ==> r.outbox == w.outbox + [StatusMessage(c.id, c.title, c.state)]
    ensures action != SEND_EMAIL ==> r.outbox == w.outbox
  {
    var w1 := if c.id in w.store then w.(store := w.store[c.id := w.store[c.id].(status := c.state)]) else w;
    if action == SEND_EMAIL then w1.(outbox := w1.outbox + [StatusMessage(c.id, c.title, c.state)])
    else w1
  }

  /** The (id, status) pairs of `SELECT id, status FROM conditions`. */
  function Snapshot(ids: seq<string>, store: map<string, Row>): (snap: seq<(string, string)>)
    ensures |snap| <= |ids|
    ensures forall j :: 0 <= j < |snap| ==> snap[j].0 in store && snap[j].1 == store[snap[j].0].status
  {
    if ids == [] then []
    else (if ids[0] in store then [(ids[0], store[ids[0]].status)] else []) + Snapshot(ids[1..], store)
  }

  /** One iteration of status_stored_conditions: re-read the record and
      compare its workflow state with the status read at the start. */
  function StatusStep(w: World, entry: (string, string), up: string -> Payload, action: string): (r: World)
    ensures r.ids == w.ids && r.run == w.run && r.store.Keys == w.store.Keys
    ensures WithDefaults(up(entry.0)).state == entry.1 ==> r == w
  {
    var c := WithDefaults(up(entry.0));
    if c.state != entry.1 then StatusChanged(w, c, action) else w
  }

  function StatusLoop(w: World, snap: seq<(string, string)>, up: string -> Payload, action: string): World
    decreases |snap|
  {
    if snap == [] then w else StatusLoop(StatusStep(w, snap[0], up, action), snap[1..], up, action)
  }

  /** status_stored_conditions. */
  function StatusPass(w: World, up: string -> Payload, action: string): World
  {
    StatusLoop(w, Snapshot(w.ids, w.store), up, action)
  }

  /** One candidate of the default run: read it, save it and, when it was
      newly saved, execute the action for it. */
  function IngestOne(w: World, candidate: string, up: string -> Payload, cfg: Config,
                     subject: string, description: string, created: string -> bool): (r: World)
    ensures WithDefaults(up(candidate)).id in w.store ==> r == w
    ensures var c := WithDefaults(up(candidate));
            c.id !in w.store ==>
              r.ids == w.ids + [c.id] && r.store.Keys == w.store.Keys + {c.id} &&
              forall k :: k in w.store ==> r.store[k] == w.store[k]
    ensures var c := WithDefaults(up(candidate));
            c.id !in w.store && ValidAction(cfg.action) ==>
              r.run == w.run &&
              r.store[c.id] == NewRow(c, GeometryDescription(c.regions), cfg.today).(processed := PROCESSED) &&
              r.outbox == w.outbox + ActionEvents(cfg.action, subject, description, created(c.id)).value
    ensures var c := WithDefaults(up(candidate));
            c.id !in w.store && !ValidAction(cfg.action) ==>
              r.run == Exited(InvalidActionMessage(cfg.action)) && r.outbox == w.outbox &&
              r.store[c.id] == NewRow(c, GeometryDescription(c.regions), cfg.today)
  {
    var c := WithDefaults(up(candidate));
    if c.id in w.store then w
    else Executed(Saved(w, c, GeometryDescription(c.regions), cfg.today), c.id, cfg.action,
                  subject, description, created(c.id))
  }

  /** The candidate loop of the default run; it stops once the run ends. */
  function IngestLoop(w: World, candidates: seq<string>, up: string -> Payload, cfg: Config,
                      subject: string, description: string, created: string -> bool): World
    decreases |candidates|
  {
    if candidates == [] || w.run != Running then w
    else IngestLoop(IngestOne(w, candidates[0], up, cfg, subject, description, created),
                    candidates[1..], up, cfg, subject, description, created)
  }

  /** The status check that closes every run that is still going. */
  function Finish(w: World, up: string -> Payload, action: string): World {
    if w.run == Running then StatusPass(w, up, action) else w
  }

  /** What main does before its closing status check, for the command line
      `args` (without the program name), the candidate ids listed by the
      service, the service's records and the ticket outcomes. */
  function Dispatch(w: World, args: seq<string>, candidates: seq<string>, up: string -> Payload,
                    cfg: Config, subject: string, description: string, created: string -> bool): (r: World)
    ensures |args| > 0 ==> r.ids == w.ids && r.store.Keys == w.store.Keys
    ensures |args| > 0 && (args[0] == "-h" || args[0] == "help") ==> r == w.(run := Exited(""))
    ensures |args| > 0 && args[0] == "list" ==>
      r == if |w.store| > 0 then w.(run := Crashed(LIST_CRASH)) else w
    ensures |args| == 1 && args[0] == "process" ==> r == w.(run := Exited(""))
    ensures |args| >= 2 && args[0] == "process" ==>
      forall k :: k in w.store && k != WithDefaults(up(args[1])).id ==> r.store[k] == w.store[k]
    ensures |args| > 0 && args[0] != "-h" && args[0] != "help" && args[0] != "list" && args[0] != "process" ==>
      r == w
  {
    if |args| == 0 then IngestLoop(w, candidates, up, cfg, subject, description, created)
    else if args[0] == "-h" || args[0] == "help" then w.(run := Exited(""))
    else if args[0] == "list" && |w.store| > 0 then w.(run := Crashed(LIST_CRASH))
    else if args[0] == "process" && |args| < 2 then w.(run := Exited(""))
    else if args[0] == "process" then
      var id := WithDefaults(up(args[1])).id;
      Executed(w, id, cfg.action, subject, description, created(id))
    else w
  }

  /** main: the command, then the status check whenever the run is still going. */
  function RunSpec(w: World, args: seq<string>, candidates: seq<string>, up: string -> Payload,
                   cfg: Config, subject: string, description: string, created: string -> bool): World
  {
    Finish(Dispatch(w, args, candidates, up, cfg, subject, description, created), up, cfg.action)
  }
}

=== FILE: records.dfy ===
/** Condition records: the detail record the content service delivers, the row
    the `conditions` table stores, the defaulting of optional elements and the
    region description built while a record is read. */
module Records {

  datatype Option<T> = None | Some(value: T)

  /** A region referenced by a condition, as the region's own detail record
      names it: its category name and its title. */
  datatype Region = Region(category: string, title: string)

  /** A parsed condition detail record. The four optional elements may be
      missing from the service's answer; every other element is present. */
  datatype Payload = Payload(
    id: string,
    state: string,                    // meta / workflow / @state
    categoryId: string,
    dayOfInspection: string,
    dateFrom: string,
    frontendType: string,
    ranking: string,
    title: string,
    lang: Option<string>,             // localizedTitle / @lang
    longText: Option<string>,
    winterActivity: string,
    geometry: string,
    riskDescription: Option<string>,
    weatherDescription: Option<string>,
    authorId: string,                 // meta / authorFull / id
    regions: seq<Region>)

  /** One row of the `conditions` table. */
  datatype Row = Row(
    id: string,
    status: string,
    categoryId: string,
    dayOfInspection: string,
    dateFrom: string,
    frontendType: string,
    ranking: string,
    title: string,
    lang: string,
    longText: string,
    winterActivity: string,
    geometry: string,
    latitude: int,
    longitude: int,
    riskDescription: string,
    weatherDescription: string,
    userId: string,
    processed: string,
    dateProcessed: string,
    geometryDescription: string)

  const PROCESSED := "y"
  const UNPROCESSED := "n"

  /** The stored flag says the new-record action has run. */
  predicate IsProcessed(r: Row) {
    r.processed == PROCESSED
  }

  /** The text one region contributes to a geometry description. */
  function RegionSegment(r: Region): (s: string)
    ensures |s| == |r.category| + |r.title| + 5
    ensures s[..|r.category|] == r.category
    ensures s[|s| - 3..] == " / "
  {
    r.category + "->" + r.title + " / "
  }

  /** The segments of all regions, in order. */
  function GeometryDescription(regions: seq<Region>): string
  {
    if regions == [] then ""
    else GeometryDescription(regions[..|regions| - 1]) + RegionSegment(regions[|regions| - 1])
  }

  /** Sum of the segment lengths, counted from the region names. */
  function SegmentsLength(regions: seq<Region>): nat
  {
    if regions == [] then 0
    else SegmentsLength(regions[..|regions| - 1])
         + |regions[|regions| - 1].category| + |regions[|regions| - 1].title| + 5
  }

  lemma {:induction false} GeometryDescriptionAppend(a: seq<Region>, b: seq<Region>)
    ensures GeometryDescription(a + b) == GeometryDescription(a) + GeometryDescription(b)
    decreases |b|
  {
    if b == [] {
      assert a + b == a;
    } else {
      var b', last := b[..|b| - 1], b[|b| - 1];
      assert (a + b)[..|a + b| - 1] == a + b';
      assert (a + b)[|a + b| - 1] == last;
      GeometryDescriptionAppend(a, b');
      var x, y, z := GeometryDescription(a), GeometryDescription(b'), RegionSegment(last);
      assert GeometryDescription(a + b) == (x + y) + z;
      assert GeometryDescription(b) == y + z;
      assert (x + y) + z == x + (y + z);
    }
  }

  lemma {:induction false} GeometryDescriptionLength(regions: seq<Region>)
    ensures |GeometryDescription(regions)| == SegmentsLength(regions)
    decreases |regions|
  {
    if regions != [] {
      GeometryDescriptionLength(regions[..|regions| - 1]);
    }
  }

  /** The k-th region's segment sits in the description right after the
      segments of the regions before it. */
  lemma GeometrySegmentAt(regions: seq<Region>, k: nat)
    requires k < |regions|
    ensures var from := SegmentsLength(regions[..k]);
            from + |RegionSegment(regions[k])| <= |GeometryDescription(regions)| &&
            GeometryDescription(regions)[from..from + |RegionSegment(regions[k])|]
              == RegionSegment(regions[k])
  {
    var before, rest := regions[..k], regions[k + 1..];
    assert regions == before + [regions[k]] + rest;
    GeometryDescriptionAppend(before + [regions[k]], rest);
    GeometryDescriptionAppend(before, [regions[k]]);
    assert GeometryDescription([regions[k]]) == RegionSegment(regions[k]) by {
      assert [regions[k]][..0] == [];
    }
    GeometryDescriptionLength(before);
  }

  /** An optional element, or the empty string when it is missing. */
  function OrEmpty(o: Option<string>): string {
    match o
    case Some(v) => v
    case None => ""
  }

  /** Every optional element is present. */
  predicate Filled(p: Payload) {
    p.lang.Some? && p.longText.Some? && p.riskDescription.Some? && p.weatherDescription.Some?
  }

  /** The record with each missing optional element set to the empty string. */
  function WithDefaults(p: Payload): (q: Payload)
    ensures Filled(q)
    ensures Filled(p) ==> q == p
    ensures p.longText.None? ==> q.longText == Some("")
    ensures p.weatherDescription.None? ==> q.weatherDescription == Some("")
    ensures p.lang.None? ==> q.lang == Some("")
    ensures p.riskDescription.None? ==> q.riskDescription == Some("")
    ensures p.longText.Some? ==> q.longText == p.longText
    ensures p.weatherDescription.Some? ==> q.weatherDescription == p.weatherDescription
    ensures p.lang.Some? ==> q.lang == p.lang
    ensures p.riskDescription.Some? ==> q.riskDescription == p.riskDescription
    ensures q.(lang := p.lang, longText := p.longText,
               riskDescription := p.riskDescription, weatherDescription := p.weatherDescription) == p
  {
    p.(lang := Some(OrEmpty(p.lang)), longText := Some(OrEmpty(p.longText)),
       riskDescription := Some(OrEmpty(p.riskDescription)),
       weatherDescription := Some(OrEmpty(p.weatherDescription)))
  }

  /** The row inserted for a newly seen record: the record's columns, zero
      coordinates, the flag "n", today's date and the region description. */
  function NewRow(p: Payload, geometryDescription: string, today: string): (r: Row)
    requires Filled(p)
    ensures r.id == p.id && r.status == p.state && r.title == p.title
    ensures r.frontendType == p.frontendType && r.dayOfInspection == p.dayOfInspection
    ensures r.userId == p.authorId
    ensures r.categoryId == p.categoryId && r.dateFrom == p.dateFrom && r.ranking == p.ranking
    ensures r.winterActivity == p.winterActivity && r.geometry == p.geometry
    ensures Some(r.lang) == p.lang && Some(r.longText) == p.longText
    ensures Some(r.riskDescription) == p.riskDescription
    ensures Some(r.weatherDescription) == p.weatherDescription
    ensures r.latitude == 0 && r.longitude == 0
    ensures !IsProcessed(r) && r.processed == UNPROCESSED
    ensures r.dateProcessed == today && r.geometryDescription == geometryDescription
  {
    Row(p.id, p.state, p.categoryId, p.dayOfInspection, p.dateFrom, p.frontendType,
        p.ranking, p.title, p.lang.value, p.longText.value, p.winterActivity, p.geometry,
        0, 0, p.riskDescription.value, p.weatherDescription.value, p.authorId,
        UNPROCESSED, today, geometryDescription)
  }
}
